=== FILE: README.md ===
# Fintoc service and contact-form validation, modelled in Dafny

This project models the two pieces of pure decision logic in a small Flask
application that links Chilean bank accounts through the Fintoc API:

- **`FintocService`** (`fintoc_service.py`). This covers:
  - the API-key guard every operation evaluates first;
  - the requests the operations build: the link-intent body and the movements query with its clamped `limit`;
  - the mapping from an HTTP response to the value returned;
  - the `get_link_summary` fold over a link's accounts.
- **The contact-form script** (`static/js/main.js`). This covers:
  - `isValidEmail`, the anchored regex `^[^\s@]+@[^\s@]+\.[^\s@]+$`;
  - `validateContactForm`, with its three independent field checks and the `is-invalid` marks;
  - the submit listener that cancels submission when validation fails.

The HTTP exchange is never performed. Each service operation takes the
response it would receive as an input value of type
`Response<T> = Exc | Resp(status, body)`:
- `Exc` stands for an exception raised by the HTTP library;
- a `body` of `None` stands for a body whose JSON parsing raises.

Both end in the same `except` branch. Each operation returns a
`Call(sent, result)`: the request it issued, or `None` when it issued none,
and the value it returns to its caller. Python truthiness is explicit:
- an optional string is truthy when it is present and non-empty;
- `balance.current` is truthy when it is present and non-zero.

Files:
- `wrappers.dfy`: the `Option` type.
- `fintoc_service.dfy`: module `FintocService`, covering configuration, requests, the four API operations, the summary fold and its properties.
- `js_text.dfy`: module `JsText`. It defines the JavaScript whitespace class (shared by `\s` and `trim`), `trim`, and `length` counted in UTF-16 code units.
- `contact_form.dfy`: module `ContactForm`, covering the email regex, its structural characterisation, form validation and the submit guard.

Facts about the code that the model keeps:
- The code has no `widget_token` check and tries a single accounts URL.
- Any non-success status is logged by one generic line with its number; the returned value is the same for every such status.
- The summary takes its currency only from accounts it also sums, that is, accounts with a non-zero `current`.
- Accounts whose `current` is missing or zero are skipped by the summary.

## Model

| member | source | states |
|---|---|---|
| FintocService.HasUsableKey | fintoc_service.py:37-39 | The guard of every operation passes exactly when the API key is present and not the empty string, as at lines 37, 88, 132 and 172. |
| FintocService.BodyOnStatus | fintoc_service.py:66-76 | The parsed body is returned exactly when the response is not an exception, its status equals the one success status, and the body parses. Everything else yields nothing. |
| FintocService.LinkIntentPayload | fintoc_service.py:48-56 | The link-intent body always carries the given country, `product = "movements"` and `holder_type = "individual"`. The `user` entry is present iff `user_id` is truthy, and then holds that id. |
| FintocService.CreateLinkIntent | fintoc_service.py:26-76 | If the key is falsy, it sends nothing and returns `None`. Otherwise it posts the link-intent body to `/link_intents` with the bearer header. It returns the parsed body iff the status is 201 and the body parses. |
| FintocService.ExchangeTokenForLink | fintoc_service.py:78-120 | If the key is falsy, or the token is `None`, it sends nothing and returns `None`. A `None` token fails when the log line slices it, inside the `try`. Otherwise it sends a GET to `/links/exchange` with the token as a parameter, and returns the body iff the status is 200. |
| FintocService.GetLinkAccounts | fintoc_service.py:122-157 | If the key is falsy, it sends nothing and returns `[]`. Otherwise it sends a GET to `/links/{token}/accounts`. It returns the parsed list iff the status is 200, and `[]` for any other status, an exception or an unparseable body. |
| FintocService.MovementsQueryFor | fintoc_service.py:182-186 | The query limit never exceeds 200, equals the caller's limit when that is at most 200, and is 200 otherwise. `since` and `until` are present iff truthy, and are then passed unchanged. |
| FintocService.GetAccountMovements | fintoc_service.py:159-204 | If the key is falsy, it sends nothing and returns `[]`. Otherwise it sends a GET to `/accounts/{id}/movements` with the clamped query. It returns the parsed list iff the status is 200, else `[]`. |
| FintocService.GetLinkSummary | fintoc_service.py:206-243 | It issues the same request as the accounts call and echoes the link token and the fetched accounts unchanged. `accounts_count` is the length of the whole list. The total is the sum of `current` over the counted accounts, and the currency is the last one set by a counted account, defaulting to "CLP". With no key or no accounts, it yields the fixed empty summary: 0, "CLP", 0, `[]`. |
| FintocService.CountedTotalAppend | fintoc_service.py:227-235 | The summed total of a concatenation is the sum of the totals of its parts. |
| FintocService.LastCurrencyAppend | fintoc_service.py:228-234 | Folding the currency over `s + t` continues from the currency that `s` ends with. |
| FintocService.InsertedAccountContributesNothing | fintoc_service.py:231-235 | Inserting an account whose `current` is missing or zero leaves the total unchanged, wherever it is inserted. Inserting one that sets no currency leaves the currency unchanged, even if it has a currency but a zero `current`. |
| FintocService.NoCurrencyKeepsDefault | fintoc_service.py:228-234 | When no counted account has a non-empty currency, the currency stays the default. |
| FintocService.CurrencyOfLastSetter | fintoc_service.py:231-234 | The currency is that of the last account, in list order, that is counted and has a non-empty currency. |
| FintocService.CountedTotalIgnoresOrder | fintoc_service.py:231-235 | Any reordering of the accounts yields the same total. |
| FintocService.TwoClpAccountsScenario | fintoc_service.py:227-243 | Two CLP accounts with balances 1000 and 500 give a total of 1500 in CLP. |
| FintocService.MixedCurrenciesFollowOrder | fintoc_service.py:228-235 | USD and CLP balances are added together as one total. The reported currency is whichever comes last, so swapping the two accounts changes it. |
| FintocService.IsConfigured | fintoc_service.py:22-24 | `is_configured` holds whenever the operations' guard passes. It disagrees with the guard exactly when the key is the empty string. |
| FintocService.IsConfiguredAcceptsEmptyKey | fintoc_service.py:22-24 | As written, `is_configured` holds for an empty key, yet the operations refuse that key and send nothing. |
| FintocService.DefaultArguments | fintoc_service.py:26-56 | With the default arguments, the link-intent body is country "cl" with no `user`. With the defaults of line 159, the movements query is limit 50 with no date bounds. |
| FintocService.IsConfiguredAlignedMatchesRequests | fintoc_service.py:22-24 | The corrected `is_configured`, which is the operations' own guard `HasUsableKey`, holds exactly when each of the four operations would send its request. |
| JsText.Trim | static/js/main.js:91 | `trim` yields a slice of its input such that everything removed on either side is whitespace, and a non-empty result neither starts nor ends with whitespace. |
| JsText.Utf16Length | static/js/main.js:91 | `length` counts UTF-16 code units: the number of characters plus the number of characters outside the BMP. It therefore lies between the number of characters and twice that number. |
| JsText.Utf16LengthAppend | static/js/main.js:91 | The `length` of a concatenation is the sum of the lengths of its parts. |
| JsText.AstralCharacterHasLengthTwo | static/js/main.js:91 | A single character outside the BMP has length 2. |
| JsText.TrimDropsLeadingSpace | static/js/main.js:91 | A whitespace character added in front does not change the trimmed string. |
| JsText.TrimDropsTrailingSpace | static/js/main.js:103 | A whitespace character added at the end does not change the trimmed string. |
| JsText.TrimDropsLeadingWhitespace | static/js/main.js:91 | Any all-whitespace prefix does not change the trimmed string. |
| JsText.TrimDropsTrailingWhitespace | static/js/main.js:103 | Any all-whitespace suffix does not change the trimmed string. |
| JsText.TrimDropsPadding | static/js/main.js:91-103 | All-whitespace strings on both sides do not change the trimmed string. |
| ContactForm.IsValidEmail | static/js/main.js:112-115 | `isValidEmail` is the regex test, and it holds exactly for strings of the structural shape: no whitespace, one `'@'` with something before it, and an inner `'.'` after it. |
| ContactForm.EmailRegexCharacterization | static/js/main.js:112-115 | The regex matches iff the string has no whitespace and exactly one `'@'`. The part before the `'@'` must be non-empty, and the part after it must contain a `'.'` that is neither its first nor its last character. |
| ContactForm.ValidEmailHasShape | static/js/main.js:113 | Every string the regex matches has that structural shape. |
| ContactForm.ShapedEmailIsValid | static/js/main.js:113 | Every string of that structural shape is matched by the regex. |
| ContactForm.EmailRejections | static/js/main.js:113 | A string with whitespace anywhere, or with zero or several `'@'`, is rejected. |
| ContactForm.FailedChecks | static/js/main.js:90-106 | A field is marked invalid iff its own check fails, independently of the other two checks. |
| ContactForm.ValidateContactForm | static/js/main.js:78-109 | With all three elements present, the result is true iff the trimmed name has length at least 2, the untrimmed email passes `isValidEmail`, and the trimmed message has length at least 10. Each field is marked iff its own check fails, whatever the earlier marks. If an element is missing, clearing the marks throws, and no mark is added. |
| ContactForm.VerdictMatchesMarks | static/js/main.js:83-108 | The verdict is true exactly when no field ends up marked. |
| ContactForm.SubmitPrevented | static/js/main.js:133-136 | Submission is cancelled iff all elements exist and some check fails. When validation throws, the listener never reaches `preventDefault`. |
| ContactForm.FiveAstralCharactersMakeValidMessage | static/js/main.js:103 | A message of five characters outside the BMP has JavaScript length 10, so it passes the length check. |
| ContactForm.PaddedEmailRejected | static/js/main.js:97 | An email with any non-empty run of whitespace before or after it is rejected, because the email is not trimmed. |
| ContactForm.SurroundingSpaceMattersOnlyForEmail | static/js/main.js:91-103 | For arbitrary all-whitespace strings `w1` and `w2`, not both empty, `w1 + email + w2` is an invalid email. Wrapping a name or a message in `w1` and `w2` never changes its verdict. |

## Findings

| source | as written | input that shows it | evidently intended | confidence | as-written member | corrected member |
|---|---|---|---|---|---|---|
| fintoc_service.py:22-24 | `is_configured` returns `api_key is not None`, but every operation refuses a falsy key (`if not self.api_key`) | `FINTOC_API_KEY = ""`: `is_configured()` is true, yet every operation returns `None` or `[]` without a request | "configured" should mean the operations will contact the API, that is, the key is truthy | medium (not executed) | FintocService.IsConfiguredAcceptsEmptyKey | FintocService.IsConfiguredAlignedMatchesRequests |

## Left out

- `app.py`: framework routes, template rendering and a static JSON stub, with no logic of their own.
- Network I/O, request headers other than Authorization, the fixed `Content-Type`, Flask's configuration lookup and all logging. The response is an input. The configuration is a `Config` value. Log output is left out. Some log lines evaluate arguments that can raise, and the model keeps those raises: the `exchange_token[:20]` slice at fintoc_service.py:102 (see `ExchangeTokenForLink`), and `result.get('id')` or `len(result)` at fintoc_service.py:68, 112, 149 and 196 (see the item on body shapes below).
- Default arguments: callers in the model pass every argument explicitly. The Python defaults are `country='cl'` (`DefaultCountry`), `user_id=None`, `limit=50` (`DefaultMovementsLimit`), `since=None` and `until=None`. `DefaultArguments` states the requests they produce.
- `public_key`: it is read from configuration but no operation uses it.
- Response bodies of unexpected JSON shapes. Bodies are typed in the model: the accounts body is a list of accounts, and the link-intent and link bodies are opaque values. In the code:
  - `result.get('id')` (lines 68 and 112) raises on a body that is not a JSON object, inside the `try`, so `create_link_intent` and `exchange_token_for_link` return `None`.
  - `len(result)` (lines 149 and 196) raises only on a number, boolean or `null` body, which then yields `[]`. An object or string body is returned unchanged.
  - `get_link_summary` has no `try`. For such a body, or for an account that is not an object, `account.get` (line 232) raises out of the method.
- Arguments of non-string or non-integer Python types, such as a non-numeric `limit`, are left out. The exchange token is modelled as a string or `None` only.
- Floating-point balances: `balance.current` is an integer, matching whole-peso CLP amounts.
- The DOM:
  - tooltips, alert auto-hide and `loadApiData`;
  - smooth scrolling;
  - the error alert inserted before the form and scrolled into view (main.js 3-75, 117-129, 138-155).
- Lone UTF-16 surrogates: Dafny characters are Unicode scalar values, so a JavaScript string holding an unpaired surrogate cannot be represented. For well-formed text, the regex gives the same verdict whether it scans code units or code points.
- The Unicode space-separator set is fixed at the characters listed in `JsText.IsJsSpace`.

=== FILE: contact_form.dfy ===
/**
 * Client-side validation of the contact form: the email regex, the
 * three field checks of `validateContactForm`, and the submit handler
 * that cancels submission when validation fails.
 */
module ContactForm {
  import opened Wrappers
  import opened JsText

  const MinNameLength: nat := 2
  const MinMessageLength: nat := 10

  // ---------------------------------------------------------------------
  // isValidEmail: /^[^\s@]+@[^\s@]+\.[^\s@]+$/
  // ---------------------------------------------------------------------

  /** The character class `[^\s@]`. */
  predicate IsEmailChar(c: char) {
    !IsJsSpace(c) && c != '@'
  }

  /** `t` matches `[^\s@]+`. */
  predicate EmailRun(t: string) {
    |t| > 0 && forall k | 0 <= k < |t| :: IsEmailChar(t[k])
  }

  /**
   * `email` splits at position `at` (an `'@'`) and a later position `dot`
   * (a `'.'`) into three runs of `[^\s@]+`.
   */
  predicate Splits(email: string, at: int, dot: int) {
    && 0 <= at < dot < |email|
    && email[at] == '@' && email[dot] == '.'
    && EmailRun(email[..at]) && EmailRun(email[at + 1..dot]) && EmailRun(email[dot + 1..])
  }

  /** The anchored regex `/^[^\s@]+@[^\s@]+\.[^\s@]+$/` matches: some split exists. */
  predicate MatchesEmailRegex(email: string) {
    exists at, dot | 0 <= at < dot < |email| :: Splits(email, at, dot)
  }

  /** Number of occurrences of `c` in `s`. */
  function CountOf(s: string, c: char): nat {
    if |s| == 0 then 0 else (if s[0] == c then 1 else 0) + CountOf(s[1..], c)
  }

  /** Position of the first `c` in `s`, or `|s|` when there is none. */
  function IndexOf(s: string, c: char): (i: nat)
    ensures i <= |s|
    ensures i < |s| ==> s[i] == c
    ensures forall k | 0 <= k < i :: s[k] != c
  {
    if |s| == 0 then 0 else if s[0] == c then 0 else 1 + IndexOf(s[1..], c)
  }

  /** `d` has a `'.'` that is neither its first nor its last character. */
  predicate HasInnerDot(d: string) {
    exists k | 0 < k < |d| - 1 :: d[k] == '.'
  }

  /**
   * Structural reading of a valid address: no whitespace, exactly one
   * `'@'`, something before it, and an inner `'.'` after it.
   */
  predicate EmailShape(s: string) {
    && NoJsSpace(s)
    && CountOf(s, '@') == 1
    && var i := IndexOf(s, '@');
       0 < i < |s| && HasInnerDot(s[i + 1..])
  }

  lemma {:induction false} CountOfAppend(s: string, t: string, c: char)
    ensures CountOf(s + t, c) == CountOf(s, c) + CountOf(t, c)
    decreases |s|
  {
    if |s| == 0 {
      assert s + t == t;
    } else {
      assert (s + t)[1..] == s[1..] + t;
      CountOfAppend(s[1..], t, c);
    }
  }

  /** `c` does not occur in `s` exactly when its count is zero. */
  lemma {:induction false} CountOfZero(s: string, c: char)
    ensures CountOf(s, c) == 0 <==> forall k | 0 <= k < |s| :: s[k] != c
    decreases |s|
  {
    if |s| > 0 {
      CountOfZero(s[1..], c);
      assert forall k | 1 <= k < |s| :: s[k] == s[1..][k - 1];
    }
  }

  /** Position `at` holds the only `'@'` of `s`, and every other character is in `[^\s@]`. */
  predicate SoleAt(s: string, at: int) {
    && 0 <= at < |s| && s[at] == '@'
    && forall k | 0 <= k < |s| && k != at :: IsEmailChar(s[k])
  }

  lemma SoleAtShape(s: string, at: int)
    requires SoleAt(s, at)
    ensures NoJsSpace(s) && CountOf(s, '@') == 1 && IndexOf(s, '@') == at
  {
    var local, domain := s[..at], s[at + 1..];
    assert s == local + [s[at]] + domain;
    assert forall k | 0 <= k < |domain| :: domain[k] == s[at + 1 + k];
    CountOfZero(local, '@');
    CountOfZero(domain, '@');
    CountOfAppend(local + [s[at]], domain, '@');
    CountOfAppend(local, [s[at]], '@');
    assert [s[at]][1..] == [];
  }

  lemma ShapeSoleAt(s: string)
    requires EmailShape(s)
    ensures SoleAt(s, IndexOf(s, '@'))
  {
    var at := IndexOf(s, '@');
    var local, domain := s[..at], s[at + 1..];
    assert s == local + [s[at]] + domain;
    CountOfAppend(local + [s[at]], domain, '@');
    CountOfAppend(local, [s[at]], '@');
    assert [s[at]][1..] == [];
    CountOfZero(domain, '@');
    forall j | 0 <= j < |s| && j != at
      ensures IsEmailChar(s[j])
    {
      if at < j {
        assert s[j] == domain[j - at - 1];
      }
    }
  }

  lemma SplitsSoleAt(s: string, at: int, dot: int)
    requires Splits(s, at, dot)
    ensures SoleAt(s, at)
  {
  }

  lemma SoleAtSplits(s: string, at: int, dot: int)
    requires SoleAt(s, at)
    requires 0 < at && at + 1 < dot < |s| - 1 && s[dot] == '.'
    ensures Splits(s, at, dot)
  {
  }

  lemma ValidEmailHasShape(s: string)
    requires MatchesEmailRegex(s)
    ensures EmailShape(s)
  {
    var at, dot :| Splits(s, at, dot);
    SplitsSoleAt(s, at, dot);
    SoleAtShape(s, at);
    assert s[at + 1..][dot - at - 1] == '.';
  }

  lemma ShapedEmailIsValid(s: string)
    requires EmailShape(s)
    ensures MatchesEmailRegex(s)
  {
    var at := IndexOf(s, '@');
    ShapeSoleAt(s);
    var k :| 0 < k < |s[at + 1..]| - 1 && s[at + 1..][k] == '.';
    SoleAtSplits(s, at, at + 1 + k);
  }

  /** The regex accepts exactly the addresses of the structural shape. */
  lemma EmailRegexCharacterization(s: string)
    ensures MatchesEmailRegex(s) <==> EmailShape(s)
  {
    if MatchesEmailRegex(s) {
      ValidEmailHasShape(s);
    }
    if EmailShape(s) {
      ShapedEmailIsValid(s);
    }
  }

  /**
   * `isValidEmail`: the regex test, which accepts exactly the addresses of
   * the structural shape.
   */
  predicate IsValidEmail(email: string)
    ensures IsValidEmail(email) <==> EmailShape(email)
  {
    EmailRegexCharacterization(email);
    MatchesEmailRegex(email)
  }

  /** Whitespace anywhere, or any number of `'@'` other than one, is rejected. */
  lemma EmailRejections(s: string)
    ensures !NoJsSpace(s) ==> !IsValidEmail(s)
    ensures CountOf(s, '@') != 1 ==> !IsValidEmail(s)
  {
  }

  // ---------------------------------------------------------------------
  // validateContactForm and the submit handler
  // ---------------------------------------------------------------------

  datatype Field = Name | Email | Message

  /**
   * The contact form as the script finds it: each input element's value,
   * `None` when `getElementById` finds no such element, and the set of
   * fields currently carrying the `is-invalid` class.
   */
  datatype Form = Form(name: Option<string>, email: Option<string>, message: Option<string>,
                       marked: set<Field>)

  /**
   * The outcome of `validateContactForm`: it either throws (a missing
   * element is dereferenced while clearing the marks) or returns a
   * verdict; either way `marked` is the set of fields marked afterwards.
   */
  datatype Validation = Threw(marked: set<Field>) | Returned(valid: bool, marked: set<Field>)

  predicate NameOk(name: string) {
    Utf16Length(Trim(name)) >= MinNameLength
  }

  predicate MessageOk(message: string) {
    Utf16Length(Trim(message)) >= MinMessageLength
  }

  predicate AllPresent(f: Form) {
    f.name.Some? && f.email.Some? && f.message.Some?
  }

  /** The fields marked by the three independent checks. */
  function FailedChecks(nameOk: bool, emailOk: bool, messageOk: bool): (marked: set<Field>)
    ensures Name in marked <==> !nameOk
    ensures Email in marked <==> !emailOk
    ensures Message in marked <==> !messageOk
  {
    (if nameOk then {} else {Name})
    + (if emailOk then {} else {Email})
    + (if messageOk then {} else {Message})
  }

  function ValidateContactForm(f: Form): (v: Validation)
    ensures !AllPresent(f) ==> v.Threw? && v.marked <= f.marked
    ensures AllPresent(f) ==> v.Returned?
    ensures AllPresent(f) ==>
      (v.valid <==> NameOk(f.name.value) && IsValidEmail(f.email.value) && MessageOk(f.message.value))
    ensures AllPresent(f) ==>
      && (Name in v.marked <==> !NameOk(f.name.value))
      && (Email in v.marked <==> !IsValidEmail(f.email.value))
      && (Message in v.marked <==> !MessageOk(f.message.value))
  {
    // Clearing walks [name, email, message] and stops at the first missing element.
    if f.name.None? then Threw(f.marked)
    else if f.email.None? then Threw(f.marked - {Name})
    else if f.message.None? then Threw(f.marked - {Name, Email})
    else
      var cleared := f.marked - {Name, Email, Message};
      var nameOk := NameOk(f.name.value);
      var emailOk := IsValidEmail(f.email.value);
      var messageOk := MessageOk(f.message.value);
      Returned(nameOk && emailOk && messageOk, cleared + FailedChecks(nameOk, emailOk, messageOk))
  }

  /** The verdict is true exactly when no field ends up marked. */
  lemma VerdictMatchesMarks(f: Form)
    requires AllPresent(f)
    ensures ValidateContactForm(f).valid <==> ValidateContactForm(f).marked == {}
  {
    var v := ValidateContactForm(f);
    if v.valid {
      forall x: Field
        ensures x !in v.marked
      {
        match x
        case Name =>
        case Email =>
        case Message =>
      }
    } else if !NameOk(f.name.value) {
      assert Name in v.marked;
    } else if !IsValidEmail(f.email.value) {
      assert Email in v.marked;
    } else {
      assert Message in v.marked;
    }
  }

  /**
   * The submit listener cancels the default action exactly when
   * `validateContactForm` returns false; when it throws, the listener
   * stops before `preventDefault` and the form is submitted.
   */
  function SubmitPrevented(f: Form): (prevented: bool)
    ensures prevented <==>
      AllPresent(f)
      && !(NameOk(f.name.value) && IsValidEmail(f.email.value) && MessageOk(f.message.value))
  {
    match ValidateContactForm(f)
    case Returned(valid, _) => !valid
    case Threw(_) => false
  }

  /**
   * The email is validated untrimmed while name and message are trimmed:
   * surrounding whitespace invalidates an email but changes nothing for a
   * name or a message.
   */
  lemma SurroundingSpaceMattersOnlyForEmail(name: string, email: string, message: string,
                                            w1: string, w2: string)
    requires AllJsSpace(w1) && AllJsSpace(w2)
    ensures |w1| + |w2| > 0 ==> !IsValidEmail(w1 + email + w2)
    ensures NameOk(w1 + name + w2) == NameOk(name)
    ensures MessageOk(w1 + message + w2) == MessageOk(message)
  {
    PaddedEmailRejected(email, w1, w2);
    TrimDropsPadding(w1, name, w2);
    TrimDropsPadding(w1, message, w2);
  }

  lemma PaddedEmailRejected(email: string, w1: string, w2: string)
    requires AllJsSpace(w1) && AllJsSpace(w2)
    ensures |w1| + |w2| > 0 ==> !IsValidEmail(w1 + email + w2)
  {
    var padded := w1 + email + w2;
    if |w1| > 0 {
      assert padded[0] == w1[0];
    } else if |w2| > 0 {
      assert padded[|padded| - 1] == w2[|w2| - 1];
    }
  }

  /**
   * Five astral characters (five emoji, say) make a message of JavaScript
   * length 10, enough for the message check, though only five characters.
   */
  lemma FiveAstralCharactersMakeValidMessage(c: char)
    requires c as int > 0xFFFF
    ensures MessageOk([c, c, c, c, c])
  {
    var m := [c, c, c, c, c];
    assert [c][1..] == [];
    assert AstralCount([c]) == 1;
    assert [c, c][1..] == [c];
    assert AstralCount([c, c]) == 2;
    assert [c, c, c][1..] == [c, c];
    assert AstralCount([c, c, c]) == 3;
    assert [c, c, c, c][1..] == [c, c, c];
    assert AstralCount([c, c, c, c]) == 4;
    assert m[1..] == [c, c, c, c];
    assert AstralCount(m) == 5;
    assert TrimStart(m) == m;
    assert TrimEnd(m) == m;
    assert Trim(m) == m;
  }
}

=== FILE: fintoc_service.dfy ===
/**
 * The decision logic of the Fintoc client wrapper (`FintocService`).
 *
 * Every HTTP exchange is abstracted: an operation receives the response it
 * would get as an input value and returns both the request it issued (if
 * any) and the value it hands back to its caller.
 */
module FintocService {
  import opened Wrappers

  const BaseUrl: string := "https://api.fintoc.com/v1"
  const MaxMovementsLimit: int := 200
  const DefaultMovementsLimit: int := 50
  const DefaultCountry: string := "cl"
  const DefaultCurrency: string := "CLP"
  const LinkIntentCreated: int := 201
  const Ok: int := 200

  /** Python truthiness of an optional string: `None` and `""` are falsy. */
  predicate Truthy(s: Option<string>) {
    s.Some? && |s.value| > 0
  }

  // ---------------------------------------------------------------------
  // Configuration
  // ---------------------------------------------------------------------

  /** The two keys read from the application configuration; absent keys are `None`. */
  datatype Config = Config(apiKey: Option<string>, publicKey: Option<string>)

  /** The guard every operation evaluates first: `if not self.api_key`. */
  predicate HasUsableKey(cfg: Config)
    ensures HasUsableKey(cfg) <==> cfg.apiKey != None && cfg.apiKey != Some("")
  {
    Truthy(cfg.apiKey)
  }

  // ---------------------------------------------------------------------
  // Requests, responses and calls
  // ---------------------------------------------------------------------

  datatype HttpMethod = Get | Post

  /** The JSON body posted to `/link_intents`; `user` holds the `{id}` object when present. */
  datatype LinkIntentBody =
    LinkIntentBody(country: string, product: string, holderType: string, user: Option<string>)

  /** The query string of a movements request. */
  datatype MovementsQuery = MovementsQuery(limit: int, since: Option<string>, until: Option<string>)

  datatype Payload =
    | NoPayload
    | IntentJson(intent: LinkIntentBody)
    | ExchangeParams(exchangeToken: string)
    | MovementsParams(query: MovementsQuery)

  /** An outgoing request; `authorization` is the value of the Authorization header. */
  datatype Request = Request(verb: HttpMethod, url: string, authorization: string, payload: Payload)

  /**
   * What the HTTP library hands back: `Exc` when it raised (connection
   * failure and the like), otherwise a status and the parsed JSON body,
   * `None` when parsing the body would raise.
   */
  datatype Response<T> = Exc | Resp(status: int, body: Option<T>)

  /** The observable effect of one operation: the request sent, if any, and the returned value. */
  datatype Call<R> = Call(sent: Option<Request>, result: R)

  function BearerHeader(apiKey: string): string {
    "Bearer " + apiKey
  }

  /**
   * The parsed body of `resp` when its status is exactly `success`;
   * `None` for every other status, for a failed request and for a body
   * that cannot be parsed (all three end in the same `return None`/`[]`).
   */
  function BodyOnStatus<T>(resp: Response<T>, success: int): (r: Option<T>)
    ensures r.Some? <==> resp.Resp? && resp.status == success && resp.body.Some?
    ensures r.Some? ==> r.value == resp.body.value
  {
    match resp
    case Exc => None
    case Resp(status, body) => if status == success then body else None
  }

  // ---------------------------------------------------------------------
  // create_link_intent
  // ---------------------------------------------------------------------

  /** The body of a link-intent request. */
  function LinkIntentPayload(country: string, userId: Option<string>): (b: LinkIntentBody)
    ensures b.country == country
    ensures b.product == "movements" && b.holderType == "individual"
    ensures b.user.Some? <==> Truthy(userId)
    ensures b.user.Some? ==> b.user == userId
  {
    LinkIntentBody(country, "movements", "individual", if Truthy(userId) then userId else None)
  }

  function CreateLinkIntent<T>(cfg: Config, country: string, userId: Option<string>, resp: Response<T>)
    : (c: Call<Option<T>>)
    ensures !HasUsableKey(cfg) ==> c.sent.None? && c.result.None?
    ensures HasUsableKey(cfg) ==>
      c.sent == Some(Request(Post, BaseUrl + "/link_intents", BearerHeader(cfg.apiKey.value),
                             IntentJson(LinkIntentPayload(country, userId))))
    ensures c.result.Some? <==>
      HasUsableKey(cfg) && resp.Resp? && resp.status == LinkIntentCreated && resp.body.Some?
    ensures c.result.Some? ==> c.result.value == resp.body.value
  {
    if !HasUsableKey(cfg) then Call(None, None)
    else
      var req := Request(Post, BaseUrl + "/link_intents", BearerHeader(cfg.apiKey.value),
                         IntentJson(LinkIntentPayload(country, userId)));
      Call(Some(req), BodyOnStatus(resp, LinkIntentCreated))
  }

  // ---------------------------------------------------------------------
  // exchange_token_for_link
  // ---------------------------------------------------------------------

  /**
   * `exchangeToken` is `None` when the caller passes Python's `None`: the
   * log line slices it before any request is made, that raises inside the
   * `try`, and the operation returns `None` without contacting the API.
   */
  function ExchangeTokenForLink<T>(cfg: Config, exchangeToken: Option<string>, resp: Response<T>)
    : (c: Call<Option<T>>)
    ensures !HasUsableKey(cfg) || exchangeToken.None? ==> c.sent.None? && c.result.None?
    ensures HasUsableKey(cfg) && exchangeToken.Some? ==>
      c.sent == Some(Request(Get, BaseUrl + "/links/exchange", BearerHeader(cfg.apiKey.value),
                             ExchangeParams(exchangeToken.value)))
    ensures c.result.Some? <==>
      HasUsableKey(cfg) && exchangeToken.Some? && resp.Resp? && resp.status == Ok && resp.body.Some?
    ensures c.result.Some? ==> c.result.value == resp.body.value
  {
    if !HasUsableKey(cfg) then Call(None, None)
    else if exchangeToken.None? then Call(None, None)
    else
      var req := Request(Get, BaseUrl + "/links/exchange", BearerHeader(cfg.apiKey.value),
                         ExchangeParams(exchangeToken.value));
      Call(Some(req), BodyOnStatus(resp, Ok))
  }

  // ---------------------------------------------------------------------
  // get_link_accounts
  // ---------------------------------------------------------------------

  /** The balance object of an account; either field may be missing from the JSON. */
  datatype Balance = Balance(current: Option<int>, currency: Option<string>)

  /**
   * An account as returned by the API. `balance` is `None` when the key is
   * missing or `null`; an empty balance object is `Some(Balance(None, None))`,
   * which the summary skips just as it skips `None`.
   */
  datatype Account = Account(id: string, balance: Option<Balance>)

  function AccountsUrl(linkToken: string): string {
    BaseUrl + "/links/" + linkToken + "/accounts"
  }

  function GetLinkAccounts(cfg: Config, linkToken: string, resp: Response<seq<Account>>)
    : (c: Call<seq<Account>>)
    ensures !HasUsableKey(cfg) ==> c.sent.None? && c.result == []
    ensures HasUsableKey(cfg) ==>
      c.sent == Some(Request(Get, AccountsUrl(linkToken), BearerHeader(cfg.apiKey.value), NoPayload))
    ensures HasUsableKey(cfg) && resp.Resp? && resp.status == Ok && resp.body.Some? ==>
      c.result == resp.body.value
    ensures !(resp.Resp? && resp.status == Ok && resp.body.Some?) ==> c.result == []
  {
    if !HasUsableKey(cfg) then Call(None, [])
    else
      var req := Request(Get, AccountsUrl(linkToken), BearerHeader(cfg.apiKey.value), NoPayload);
      match BodyOnStatus(resp, Ok)
      case Some(accounts) => Call(Some(req), accounts)
      case None => Call(Some(req), [])
  }

  // ---------------------------------------------------------------------
  // get_account_movements
  // ---------------------------------------------------------------------

  /** The query of a movements request: the clamped limit and the truthy date bounds. */
  function MovementsQueryFor(limit: int, since: Option<string>, until: Option<string>)
    : (q: MovementsQuery)
    ensures q.limit <= MaxMovementsLimit
    ensures limit <= MaxMovementsLimit ==> q.limit == limit
    ensures limit > MaxMovementsLimit ==> q.limit == MaxMovementsLimit
    ensures q.since.Some? <==> Truthy(since)
    ensures q.since.Some? ==> q.since == since
    ensures q.until.Some? <==> Truthy(until)
    ensures q.until.Some? ==> q.until == until
  {
    var clamped := if limit < MaxMovementsLimit then limit else MaxMovementsLimit;
    MovementsQuery(clamped,
                   if Truthy(since) then since else None,
                   if Truthy(until) then until else None)
  }

  function MovementsUrl(accountId: string): string {
    BaseUrl + "/accounts/" + accountId + "/movements"
  }

  function GetAccountMovements<M>(cfg: Config, accountId: string, limit: int,
                                  since: Option<string>, until: Option<string>,
                                  resp: Response<seq<M>>)
    : (c: Call<seq<M>>)
    ensures !HasUsableKey(cfg) ==> c.sent.None? && c.result == []
    ensures HasUsableKey(cfg) ==>
      c.sent == Some(Request(Get, MovementsUrl(accountId), BearerHeader(cfg.apiKey.value),
                             MovementsParams(MovementsQueryFor(limit, since, until))))
    ensures HasUsableKey(cfg) && resp.Resp? && resp.status == Ok && resp.body.Some? ==>
      c.result == resp.body.value
    ensures !(resp.Resp? && resp.status == Ok && resp.body.Some?) ==> c.result == []
  {
    if !HasUsableKey(cfg) then Call(None, [])
    else
      var req := Request(Get, MovementsUrl(accountId), BearerHeader(cfg.apiKey.value),
                         MovementsParams(MovementsQueryFor(limit, since, until)));
      match BodyOnStatus(resp, Ok)
      case Some(movements) => Call(Some(req), movements)
      case None => Call(Some(req), [])
  }

  // ---------------------------------------------------------------------
  // get_link_summary
  // ---------------------------------------------------------------------

  datatype Summary =
    Summary(linkToken: string, totalBalance: int, currency: string,
            accountsCount: nat, accounts: seq<Account>)

  /** The summary of a link without accounts. */
  function EmptySummary(linkToken: string): Summary {
    Summary(linkToken, 0, DefaultCurrency, 0, [])
  }

  /** An account takes part in the fold when it has a balance whose `current` is truthy (present, non-zero). */
  predicate Counted(a: Account) {
    a.balance.Some? && a.balance.value.current.Some? && a.balance.value.current.value != 0
  }

  /** A counted account whose balance also carries a non-empty currency. */
  predicate SetsCurrency(a: Account) {
    Counted(a) && Truthy(a.balance.value.currency)
  }

  /** Reference definition: the sum of `balance.current` over the counted accounts. */
  function CountedTotal(accounts: seq<Account>): int {
    if |accounts| == 0 then 0
    else
      var last := accounts[|accounts| - 1];
      CountedTotal(accounts[..|accounts| - 1]) + (if Counted(last) then last.balance.value.current.value else 0)
  }

  /**
   * Reference definition: the currency of the last account that sets one,
   * or `default` when none does.
   */
  function LastCurrencyOr(accounts: seq<Account>, default: string): string {
    if |accounts| == 0 then default
    else
      var last := accounts[|accounts| - 1];
      if SetsCurrency(last) then last.balance.value.currency.value
      else LastCurrencyOr(accounts[..|accounts| - 1], default)
  }

  /**
   * `get_link_summary`: fetch the accounts of the link, then fold over them.
   * The request issued is exactly the one `get_link_accounts` issues.
   */
  method GetLinkSummary(cfg: Config, linkToken: string, resp: Response<seq<Account>>)
    returns (c: Call<Summary>)
    ensures c.sent == GetLinkAccounts(cfg, linkToken, resp).sent
    ensures c.result.linkToken == linkToken
    ensures c.result.accounts == GetLinkAccounts(cfg, linkToken, resp).result
    ensures c.result.accountsCount == |c.result.accounts|
    ensures c.result.totalBalance == CountedTotal(c.result.accounts)
    ensures c.result.currency == LastCurrencyOr(c.result.accounts, DefaultCurrency)
    ensures !HasUsableKey(cfg) ==> c.sent.None? && c.result == EmptySummary(linkToken)
    ensures !(resp.Resp? && resp.status == Ok && resp.body.Some?) ==> c.result == EmptySummary(linkToken)
  {
    var fetched := GetLinkAccounts(cfg, linkToken, resp);
    var accounts := fetched.result;
    if |accounts| == 0 {
      return Call(fetched.sent, EmptySummary(linkToken));
    }
    var total := 0;
    var currency := DefaultCurrency;
    var i := 0;
    while i < |accounts|
      invariant 0 <= i <= |accounts|
      invariant total == CountedTotal(accounts[..i])
      invariant currency == LastCurrencyOr(accounts[..i], DefaultCurrency)
    {
      var account := accounts[i];
      if account.balance.Some? && account.balance.value.current.Some?
         && account.balance.value.current.value != 0 {
        if Truthy(account.balance.value.currency) {
          currency := account.balance.value.currency.value;
        }
        total := total + account.balance.value.current.value;
      }
      assert accounts[..i + 1][..i] == accounts[..i];
      i := i + 1;
    }
    assert accounts[..i] == accounts;
    c := Call(fetched.sent, Summary(linkToken, total, currency, |accounts|, accounts));
  }

  // ---------------------------------------------------------------------
  // Properties of the summary fold
  // ---------------------------------------------------------------------

  /** The total is additive over concatenation of account lists. */
  lemma {:induction false} CountedTotalAppend(s: seq<Account>, t: seq<Account>)
    ensures CountedTotal(s + t) == CountedTotal(s) + CountedTotal(t)
    decreases |t|
  {
    if |t| == 0 {
      assert s + t == s;
    } else {
      var t' := t[..|t| - 1];
      assert (s + t)[..|s + t| - 1] == s + t';
      CountedTotalAppend(s, t');
    }
  }

  /** Folding `s + t` continues from the currency that folding `s` ends with. */
  lemma {:induction false} LastCurrencyAppend(s: seq<Account>, t: seq<Account>, default: string)
    ensures LastCurrencyOr(s + t, default) == LastCurrencyOr(t, LastCurrencyOr(s, default))
    decreases |t|
  {
    if |t| == 0 {
      assert s + t == s;
    } else {
      var t' := t[..|t| - 1];
      assert (s + t)[..|s + t| - 1] == s + t';
      LastCurrencyAppend(s, t', default);
    }
  }

  /**
   * Inserting an account anywhere in the list: an account that is not
   * counted leaves the total unchanged, and one that does not set a
   * currency (zero or missing `current`, or no currency) leaves the
   * currency unchanged.
   */
  lemma InsertedAccountContributesNothing(s: seq<Account>, i: nat, a: Account, default: string)
    requires i <= |s|
    ensures !Counted(a) ==> CountedTotal(s[..i] + [a] + s[i..]) == CountedTotal(s)
    ensures !SetsCurrency(a) ==>
      LastCurrencyOr(s[..i] + [a] + s[i..], default) == LastCurrencyOr(s, default)
  {
    assert s[..i] + s[i..] == s;
    CountedTotalAppend(s[..i] + [a], s[i..]);
    CountedTotalAppend(s[..i], [a]);
    CountedTotalAppend(s[..i], s[i..]);
    assert ([] + [a])[..0] == [];
    LastCurrencyAppend(s[..i] + [a], s[i..], default);
    LastCurrencyAppend(s[..i], [a], default);
    LastCurrencyAppend(s[..i], s[i..], default);
  }

  /** With no account setting a currency, the default survives the fold. */
  lemma {:induction false} NoCurrencyKeepsDefault(s: seq<Account>, default: string)
    requires forall k | 0 <= k < |s| :: !SetsCurrency(s[k])
    ensures LastCurrencyOr(s, default) == default
    decreases |s|
  {
    if |s| > 0 {
      NoCurrencyKeepsDefault(s[..|s| - 1], default);
    }
  }

  /** The currency is that of the last account, in list order, that sets one. */
  lemma {:induction false} CurrencyOfLastSetter(s: seq<Account>, default: string, k: nat)
    requires k < |s| && SetsCurrency(s[k])
    requires forall j | k < j < |s| :: !SetsCurrency(s[j])
    ensures LastCurrencyOr(s, default) == s[k].balance.value.currency.value
    decreases |s|
  {
    if k < |s| - 1 {
      CurrencyOfLastSetter(s[..|s| - 1], default, k);
    }
  }

  lemma MultisetRemoveAt<T>(t: seq<T>, k: nat)
    requires k < |t|
    ensures multiset(t[..k] + t[k + 1..]) == multiset(t) - multiset{t[k]}
  {
    assert t == t[..k] + [t[k]] + t[k + 1..];
  }

  /** Removing the account at position `k` takes away exactly what it contributed. */
  lemma CountedTotalRemoveAt(t: seq<Account>, k: nat)
    requires k < |t|
    ensures CountedTotal(t) == CountedTotal(t[..k] + t[k + 1..]) + CountedTotal([t[k]])
  {
    var pre, mid, post := t[..k], [t[k]], t[k + 1..];
    assert t == (pre + mid) + post;
    calc {
      CountedTotal(t);
      { CountedTotalAppend(pre + mid, post); }
      CountedTotal(pre + mid) + CountedTotal(post);
      { CountedTotalAppend(pre, mid); }
      CountedTotal(pre) + CountedTotal(mid) + CountedTotal(post);
      { CountedTotalAppend(pre, post); }
      CountedTotal(pre + post) + CountedTotal(mid);
    }
  }

  /** The total does not depend on the order of the accounts (unlike the currency). */
  lemma {:induction false} CountedTotalIgnoresOrder(s: seq<Account>, t: seq<Account>)
    requires multiset(s) == multiset(t)
    ensures CountedTotal(s) == CountedTotal(t)
    decreases |s|
  {
    if |s| == 0 {
      assert |t| == |multiset(t)| == 0;
    } else {
      var a := s[|s| - 1];
      var s' := s[..|s| - 1];
      assert s[..|s| - 1] + s[|s|..] == s';
      assert a in multiset(t);
      var k :| 0 <= k < |t| && t[k] == a;
      MultisetRemoveAt(t, k);
      MultisetRemoveAt(s, |s| - 1);
      CountedTotalIgnoresOrder(s', t[..k] + t[k + 1..]);
      CountedTotalRemoveAt(s, |s| - 1);
      CountedTotalRemoveAt(t, k);
    }
  }

  /** Two CLP accounts of 1000 and 500: total 1500, currency CLP. */
  lemma TwoClpAccountsScenario()
    ensures
      var accounts := [Account("acc_1", Some(Balance(Some(1000), Some("CLP")))),
                       Account("acc_2", Some(Balance(Some(500), Some("CLP"))))];
      CountedTotal(accounts) == 1500 && LastCurrencyOr(accounts, DefaultCurrency) == "CLP"
  {
  }

  /**
   * Mixed currencies are summed as if they were one, and the reported
   * currency is whichever comes last: swapping two accounts keeps the
   * total and changes the currency.
   */
  lemma MixedCurrenciesFollowOrder()
    ensures
      var usd := Account("usd", Some(Balance(Some(10), Some("USD"))));
      var clp := Account("clp", Some(Balance(Some(1000), Some("CLP"))));
      && CountedTotal([usd, clp]) == CountedTotal([clp, usd]) == 1010
      && LastCurrencyOr([usd, clp], DefaultCurrency) == "CLP"
      && LastCurrencyOr([clp, usd], DefaultCurrency) == "USD"
  {
    var usd := Account("usd", Some(Balance(Some(10), Some("USD"))));
    var clp := Account("clp", Some(Balance(Some(1000), Some("CLP"))));
    assert [usd, clp][..1] == [usd];
    assert [clp, usd][..1] == [clp];
    assert [usd][..0] == [];
    assert [clp][..0] == [];
    assert CountedTotal([usd]) == 10 && CountedTotal([clp]) == 1000;
  }

  // ---------------------------------------------------------------------
  // is_configured
  // ---------------------------------------------------------------------

  /** `is_configured` as written: the key is merely present (`is not None`). */
  predicate IsConfigured(cfg: Config)
    ensures HasUsableKey(cfg) ==> IsConfigured(cfg)
    ensures IsConfigured(cfg) && !HasUsableKey(cfg) <==> cfg.apiKey == Some("")
  {
    cfg.apiKey.Some?
  }

  /**
   * An empty key is reported as configured although every operation
   * refuses it and sends nothing.
   */
  lemma IsConfiguredAcceptsEmptyKey()
    ensures var cfg := Config(Some(""), None);
      IsConfigured(cfg) && CreateLinkIntent<int>(cfg, DefaultCountry, None, Exc).sent.None?
  {
  }

  /**
   * The corrected `is_configured` is the operations' own guard,
   * `HasUsableKey`: it holds exactly when the operations would contact the API.
   */
  lemma IsConfiguredAlignedMatchesRequests<T, M>(cfg: Config, country: string, userId: Option<string>,
                                                 token: string, accountId: string, limit: int,
                                                 since: Option<string>, until: Option<string>,
                                                 r1: Response<T>, r2: Response<seq<Account>>,
                                                 r3: Response<seq<M>>)
    ensures HasUsableKey(cfg) <==> CreateLinkIntent(cfg, country, userId, r1).sent.Some?
    ensures HasUsableKey(cfg) <==> ExchangeTokenForLink(cfg, Some(token), r1).sent.Some?
    ensures HasUsableKey(cfg) <==> GetLinkAccounts(cfg, token, r2).sent.Some?
    ensures HasUsableKey(cfg) <==> GetAccountMovements(cfg, accountId, limit, since, until, r3).sent.Some?
  {
  }

  // ---------------------------------------------------------------------
  // Default arguments
  // ---------------------------------------------------------------------

  /**
   * The Python defaults (`country='cl'`, `user_id=None`; `limit=50`,
   * `since=None`, `until=None`) produce a link-intent body without `user`
   * and a movements query of 50 without date bounds.
   */
  lemma DefaultArguments<T, M>(cfg: Config, accountId: string, r1: Response<T>, r2: Response<seq<M>>)
    requires HasUsableKey(cfg)
    ensures CreateLinkIntent(cfg, DefaultCountry, None, r1).sent.value.payload
         == IntentJson(LinkIntentBody("cl", "movements", "individual", None))
    ensures GetAccountMovements(cfg, accountId, DefaultMovementsLimit, None, None, r2).sent.value.payload
         == MovementsParams(MovementsQuery(50, None, None))
  {
  }
}

=== FILE: js_text.dfy ===
/**
 * The pieces of JavaScript string semantics the contact-form validator
 * relies on: the whitespace class shared by the regex escape `\s` and by
 * `String.prototype.trim`, `trim` itself, and `length`, which counts UTF-16
 * code units rather than characters.
 */
module JsText {

  /**
   * ECMAScript WhiteSpace and LineTerminator: the characters `\s` matches
   * and `trim` removes (TAB, LF, VT, FF, CR, SPACE, NBSP, the Unicode
   * space separators, LINE and PARAGRAPH SEPARATOR, and the BOM).
   */
  predicate IsJsSpace(c: char) {
    || c == '\t' || c == '\n' || c == '\U{000B}' || c == '\U{000C}' || c == '\r'
    || c == ' ' || c == '\U{00A0}' || c == '\U{1680}'
    || ('\U{2000}' <= c <= '\U{200A}')
    || c == '\U{2028}' || c == '\U{2029}' || c == '\U{202F}' || c == '\U{205F}'
    || c == '\U{3000}' || c == '\U{FEFF}'
  }

  predicate AllJsSpace(w: string) {
    forall k | 0 <= k < |w| :: IsJsSpace(w[k])
  }

  predicate NoJsSpace(s: string) {
    forall k | 0 <= k < |s| :: !IsJsSpace(s[k])
  }

  /** `s` with its longest all-whitespace prefix removed. */
  function TrimStart(s: string): (r: string)
    ensures |r| <= |s| && r == s[|s| - |r|..]
    ensures forall k | 0 <= k < |s| - |r| :: IsJsSpace(s[k])
    ensures |r| > 0 ==> !IsJsSpace(r[0])
  {
    if |s| > 0 && IsJsSpace(s[0]) then TrimStart(s[1..]) else s
  }

  /** `s` with its longest all-whitespace suffix removed. */
  function TrimEnd(s: string): (r: string)
    ensures |r| <= |s| && r == s[..|r|]
    ensures forall k | |r| <= k < |s| :: IsJsSpace(s[k])
    ensures |r| > 0 ==> !IsJsSpace(r[|r| - 1])
  {
    if |s| > 0 && IsJsSpace(s[|s| - 1]) then TrimEnd(s[..|s| - 1]) else s
  }

  /**
   * `r` is the slice of `s` starting at `a`, and everything of `s` outside
   * that slice is whitespace.
   */
  predicate SliceBetweenSpaces(s: string, r: string, a: int) {
    && 0 <= a <= |s| - |r|
    && r == s[a..a + |r|]
    && (forall k | 0 <= k < a :: IsJsSpace(s[k]))
    && (forall k | a + |r| <= k < |s| :: IsJsSpace(s[k]))
  }

  /**
   * `String.prototype.trim`: the slice of `s` left once whitespace is
   * stripped from both ends; everything stripped is whitespace and the
   * slice neither starts nor ends with it.
   */
  function Trim(s: string): (r: string)
    ensures exists a :: SliceBetweenSpaces(s, r, a)
    ensures |r| > 0 ==> !IsJsSpace(r[0]) && !IsJsSpace(r[|r| - 1])
  {
    var start := TrimStart(s);
    var r := TrimEnd(start);
    var a := |s| - |start|;
    assert SliceBetweenSpaces(s, r, a);
    r
  }

  /** Number of UTF-16 code units of one character: two for characters beyond the BMP. */
  function Utf16Units(c: char): nat {
    if c as int > 0xFFFF then 2 else 1
  }

  /** Number of characters of `s` outside the BMP. */
  function AstralCount(s: string): (k: nat)
    ensures k <= |s|
  {
    if |s| == 0 then 0 else (if s[0] as int > 0xFFFF then 1 else 0) + AstralCount(s[1..])
  }

  /** JavaScript's `length` of `s`: one code unit per character, plus one more per astral character. */
  function Utf16Length(s: string): (n: nat)
    ensures n == |s| + AstralCount(s)
    ensures |s| <= n <= 2 * |s|
    ensures (forall k | 0 <= k < |s| :: s[k] as int <= 0xFFFF) ==> n == |s|
  {
    if |s| == 0 then 0 else Utf16Units(s[0]) + Utf16Length(s[1..])
  }

  /** A single character outside the BMP (an emoji, say) has length 2. */
  lemma AstralCharacterHasLengthTwo(c: char)
    requires c as int > 0xFFFF
    ensures Utf16Length([c]) == 2
  {
  }

  /** `length` is additive over concatenation. */
  lemma {:induction false} Utf16LengthAppend(s: string, t: string)
    ensures Utf16Length(s + t) == Utf16Length(s) + Utf16Length(t)
    decreases |s|
  {
    if |s| == 0 {
      assert s + t == t;
    } else {
      assert (s + t)[1..] == s[1..] + t;
      Utf16LengthAppend(s[1..], t);
    }
  }

  /** Whitespace added at the front of a string is removed again by `trim`. */
  lemma TrimDropsLeadingSpace(c: char, s: string)
    requires IsJsSpace(c)
    ensures Trim([c] + s) == Trim(s)
  {
  }

  lemma {:induction false} TrimStartAppendSpace(s: string, c: char)
    requires IsJsSpace(c)
    ensures TrimStart(s + [c]) == if TrimStart(s) == [] then [] else TrimStart(s) + [c]
    decreases |s|
  {
    if |s| == 0 {
      assert s + [c] == [c];
      assert [c][1..] == [];
    } else if IsJsSpace(s[0]) {
      assert (s + [c])[1..] == s[1..] + [c];
      TrimStartAppendSpace(s[1..], c);
    }
  }

  /** Whitespace added at the back of a string is removed again by `trim`. */
  lemma TrimDropsTrailingSpace(s: string, c: char)
    requires IsJsSpace(c)
    ensures Trim(s + [c]) == Trim(s)
  {
    TrimStartAppendSpace(s, c);
    var t := TrimStart(s);
    if t != [] {
      assert (t + [c])[..|t|] == t;
    }
  }

  /** Any whitespace prefix is removed again by `trim`. */
  lemma {:induction false} TrimDropsLeadingWhitespace(w: string, s: string)
    requires AllJsSpace(w)
    ensures Trim(w + s) == Trim(s)
    decreases |w|
  {
    if |w| == 0 {
      assert w + s == s;
    } else {
      var rest := w[1..] + s;
      assert w + s == [w[0]] + rest;
      calc {
        Trim(w + s);
        { TrimDropsLeadingSpace(w[0], rest); }
        Trim(rest);
        { TrimDropsLeadingWhitespace(w[1..], s); }
        Trim(s);
      }
    }
  }

  /** Any whitespace suffix is removed again by `trim`. */
  lemma {:induction false} TrimDropsTrailingWhitespace(s: string, w: string)
    requires AllJsSpace(w)
    ensures Trim(s + w) == Trim(s)
    decreases |w|
  {
    if |w| == 0 {
      assert s + w == s;
    } else {
      var w' := w[..|w| - 1];
      var front := s + w';
      assert s + w == front + [w[|w| - 1]];
      calc {
        Trim(s + w);
        { TrimDropsTrailingSpace(front, w[|w| - 1]); }
        Trim(front);
        { TrimDropsTrailingWhitespace(s, w'); }
        Trim(s);
      }
    }
  }

  /** Whitespace on both sides is removed again by `trim`. */
  lemma TrimDropsPadding(w1: string, s: string, w2: string)
    requires AllJsSpace(w1) && AllJsSpace(w2)
    ensures Trim(w1 + s + w2) == Trim(s)
  {
    assert w1 + s + w2 == w1 + (s + w2);
    TrimDropsLeadingWhitespace(w1, s + w2);
    TrimDropsTrailingWhitespace(s, w2);
  }
}

=== FILE: wrappers.dfy ===
/** Optional values, standing in for Python's `None` and JavaScript's `null`. */
module Wrappers {

  datatype Option<+T> = None | Some(value: T)
}
